=== FILE: README.md ===
# Linear gradient props, Android entry

A Dafny model of the prop normalisation done by the Android entry of the
React Native `LinearGradient` component (`index.android.js`). On every render
the component turns its `colors`, `locations`, `start`, `end` and `style` props
into the props of the native `BVLinearGradient` view:

- `start` and `end` go through `convertPoint`, which turns a point object
  `{x, y}` into the pair `[x, y]` and warns about the deprecated array form;
- the four corner radii are read from the flattened style, each falling back
  (through `validNumber`) to `borderRadius || 0`, and laid out as eight values,
  two per corner, in the order top-left, top-right, bottom-right, bottom-left,
  which is the `radii` format of Android's `Path.addRoundRect`;
- `locations` is cut to at most as many entries as there are colours, after a
  warning when the two lengths differ;
- `colors` is mapped through the host's colour parser.

JavaScript values are the datatype `JsValues.JsValue` (undefined, null,
booleans, numbers as reals, strings, arrays, objects as maps) with the
language's truthiness, `typeof … === 'object'` and property reads.
`console.warn` calls are returned as `Warnings.Warning` values and thrown
exceptions as the `Failure` side of a `Result`.

Modules: `JsValues` (with the `Result` type), `Warnings`, `Points`
(`convertPoint`), `BorderRadii` (`validNumber` and the radii), `Locations`
(the mismatch test and `slice`), `Gradient` (one render).

Two places where the code does less than its own declarations suggest:
`validNumber` documents its fallback as a number (`@param {number}
defaultValue`, index.android.js:30), but the base radius it receives is
`borderRadius || 0` (line 81), which lets any truthy non-number through
(`BorderRadii.NonNumericBaseRadiusLeaks`); and the array form of a point is
still accepted as a deprecated prop type (`deprecatedPropType(PropTypes.arrayOf(
PropTypes.number), …)`, lines 40-43, with the warning "Array type is
deprecated" at line 11), yet it is read through `.x` and `.y` and lost (see
Findings). The model follows the code.

## Model

| member | source | states |
|---|---|---|
| Points.ConvertPoint | index.android.js:7-18 | warns exactly for an array; a non-null object becomes the pair of its `x` and `y` fields (undefined when absent); an array becomes `[undefined, undefined]`; anything else, null and undefined included, is returned unchanged |
| Points.ObjectPointConverts | index.android.js:14-15 | the point object `{x, y}` converts to exactly `[x, y]` with no warning |
| Points.ConvertPointUnchangedIff | index.android.js:14-17 | conversion returns its input exactly when the input is not an object, or is the array `[undefined, undefined]` |
| Points.ArrayPointLosesCoordinates | index.android.js:8-15 | the array point `[0, 1]` reaches the native view as `[undefined, undefined]`, not `[0, 1]` |
| Points.ConvertPointIntended | index.android.js:8-17 | corrected conversion: an array is read by position and still warned about; every other input converts as before |
| Points.IntendedArrayPointKept | index.android.js:8-15 | the corrected conversion keeps a two-element array point and agrees with the object form of the same coordinates |
| BorderRadii.ValidNumber | index.android.js:32-34 | the value when it is a number, the default otherwise |
| BorderRadii.ValidNumberIdempotent | index.android.js:32-34 | applying the fallback twice with one default equals applying it once |
| BorderRadii.ValidNumberFixedIff | index.android.js:32-34 | the fallback leaves a value unchanged exactly when it is a number or equals the default |
| BorderRadii.FlatStyle | index.android.js:80 | the flattened style is the style itself when that is truthy and the empty object `{}` otherwise |
| BorderRadii.BaseRadius | index.android.js:81 | the base radius is `borderRadius` when that is truthy, of whatever type, and 0 otherwise |
| BorderRadii.CornerRadius | index.android.js:82-94 | a corner's radius is its own style field when that is a number and the base radius otherwise, so it is always a number or truthy |
| BorderRadii.Duplicate | index.android.js:86-95 | every element written twice: twice the length, positions 2i and 2i+1 both hold element i |
| BorderRadii.Radii | index.android.js:80-95 | eight values; positions 2k and 2k+1 agree; corner k (top-left, top-right, bottom-right, bottom-left) is its own style field when numeric, else the base radius |
| BorderRadii.RadiiAt | index.android.js:86-95 | position i of the radii holds the radius of corner i / 2 |
| BorderRadii.UniformIff | index.android.js:82-95 | the radii are eight copies of one value exactly when all four corners resolve to it |
| BorderRadii.NoRadiusFieldsGiveZero | index.android.js:80-95 | a style without any radius field gives eight zeros |
| BorderRadii.BaseRadiusEverywhere | index.android.js:81-95 | a numeric `borderRadius` r and no numeric corner field give eight copies of r |
| BorderRadii.TopLeftOverride | index.android.js:81-95 | `{borderTopLeftRadius: 3, borderRadius: 5}` gives `[3, 3, 5, 5, 5, 5, 5, 5]` |
| BorderRadii.AllNumericIff | index.android.js:81-95 | every radius is a number exactly when the base radius is one or all four corner fields are numbers |
| BorderRadii.NonNumericBaseRadiusLeaks | index.android.js:81 | `borderRadius: "5"` puts the string "5" in all eight positions instead of 0 |
| BorderRadii.BaseRadiusLeaks | index.android.js:81-95 | any truthy `borderRadius` reaches every corner that has no field of its own |
| Locations.ClampIndex | index.android.js:104 | a `slice` index lands in `[0, len]`: kept when already inside, counted back from the end when negative, clamped otherwise |
| Locations.Slice | index.android.js:104 | `slice(start, end)` is the contiguous run starting at the clamped start, as long as the clamped end minus the clamped start, or empty |
| Locations.SliceByCopy | index.android.js:104 | the element-by-element copy of `slice` builds the same sequence as `Slice` |
| Locations.SlicePrefix | index.android.js:104 | `slice(0, n)` is the prefix of length min(n, length): never longer than n, the whole sequence when it is not longer |
| Locations.LengthsDiffer | index.android.js:74 | the warning condition needs both props truthy; for truthy arrays and strings it holds exactly when their lengths differ; a boolean or number has an undefined `length`, so whichever of the two props it is, it differs from a truthy array or string on the other side, and equals that of another boolean or number |
| Locations.LengthsDifferOfArrays | index.android.js:74 | for two arrays the mismatch warning condition holds exactly when their lengths differ |
| Locations.ForwardedLocations | index.android.js:104 | falsy locations forward null; an array or string forwards its prefix of min(colour count, length); any other truthy value throws, and only then |
| Locations.ForwardedLocationsBounded | index.android.js:104 | forwarded locations are a prefix of the given ones, never more than the colours, and all of them when they are not more |
| Gradient.MapColors | index.android.js:101 | the parsed colours are as many as the colours, each the host parser's result for the colour at the same position |
| Gradient.Render | index.android.js:64-105 | the mismatch warning is emitted, first, exactly when both props are truthy with different lengths; rendering throws exactly when `colors` is not an array (at `colors.map`) or `locations` is truthy and not sliceable (at `locations.slice`); the warnings are exactly the mismatch warning (when it applies), then, once `colors` is an array, one deprecation warning for an array `start` and then one for an array `end`; the native props are the parsed colours, converted points, forwarded locations and radii |
| Gradient.MismatchStillForwardsLocations | index.android.js:74-104 | arrays of different lengths warn and still render, with the locations cut to the colour count |
| Gradient.FewerLocationsPassThrough | index.android.js:74-104 | three colours and locations `[0, 0.5]` give one warning and forward `[0, 0.5]` unchanged |
| Gradient.ExtraLocationsTruncated | index.android.js:104 | two colours and locations `[0, 0.5, 1]` forward `[0, 0.5]` |

## Findings

| source | as written | input that shows it | evidently intended | confidence | as-written member | corrected member |
|---|---|---|---|---|---|---|
| index.android.js:8-15 | the array branch only warns and falls through, so an array point is read through `.x` and `.y` | `start = [0, 1]` is forwarded as `[undefined, undefined]` | the deprecated array form is still honoured: `[a, b]` is forwarded as `[a, b]` | high; not executed | Points.ArrayPointLosesCoordinates | Points.IntendedArrayPointKept |

`Gradient.Render` models the code as written and so uses `Points.ConvertPoint`;
`Points.ConvertPointIntended` is the conversion the warning's wording implies.

## Left out

- React composition: the wrapping `View`, the absolute-fill style of the native view, the order of `children`, and the pass-through of the remaining props and of the unflattened `style`; these are tree construction by the host framework.
- `setNativeProps` and the `gradientRef` callback (lines 57-61, 98): an imperative reference into the host framework.
- The `propTypes` declarations and `deprecatedPropType` (lines 37-55): run-time type-checking metadata.
- `requireNativeComponent('BVLinearGradient')` and the native painting: a native view whose code is not part of this model.
- `processColor` is a parameter of `Gradient.Render`, and `StyleSheet.flatten` is not modelled: the `style` of `Gradient.Props` is already flattened. Both are host library code not part of this model.
- The text of the `console.warn` messages: a warning is a value naming its kind and, for points, the prop.
- Floating point: numbers are reals, so NaN (falsy, and of type 'number') and -0 are not modelled.
- Functions as values: an object never has a callable `map` or `slice`, so `colors` that is not an array always throws, and an object `locations` always throws.
- Object identity: `colors.length !== locations.length` is compared structurally, which matters only when an object's `length` field is itself an object or array.
- Named properties on arrays and index-named property reads: `JsValues.Get` reads only non-index keys, and an array has no property other than `length`.
- BorderRadii.ValidNumber: the curried `validNumber(default)(value)` is modelled by its uncurried application.
- Locations.ForwardedLocations: strings are sequences of Unicode code points, not UTF-16 code units, so the `length` of a string (`JsValues.Get`), the mismatch test in `Gradient.Render` and the slicing of a string `locations` differ from JavaScript for characters outside the Basic Multilingual Plane (a string `locations` is outside the declared prop types anyway).

=== FILE: border_radii.dfy ===
/**
 The per-corner border radii handed to the native view. The container's
 `borderRadius` and its four per-corner fields are read from the flattened
 style and laid out in the format of the `radii` argument of Android's
 `Path.addRoundRect(RectF, float[], Path.Direction)`: eight values, two per
 corner, in the order top-left, top-right, bottom-right, bottom-left.
 */
module BorderRadii {
  import opened JsValues

  /** `validNumber(defaultValue)(value)`: the value when it is a number, else the default.
      The curried form of the code is modelled by its uncurried application. */
  function ValidNumber(defaultValue: JsValue, value: JsValue): (r: JsValue)
    ensures value.Num? ==> r == value
    ensures !value.Num? ==> r == defaultValue
  {
    if value.Num? then value else defaultValue
  }

  /** Applying the fallback twice with the same default changes nothing more. */
  lemma ValidNumberIdempotent(defaultValue: JsValue, value: JsValue)
    ensures ValidNumber(defaultValue, ValidNumber(defaultValue, value)) == ValidNumber(defaultValue, value)
  {
  }

  /** The fallback leaves a value alone exactly when it is a number or already the default. */
  lemma ValidNumberFixedIff(defaultValue: JsValue, value: JsValue)
    ensures ValidNumber(defaultValue, value) == value <==> value.Num? || value == defaultValue
  {
  }

  /** `StyleSheet.flatten(style) || {}`, given the already-flattened style. */
  function FlatStyle(style: JsValue): (flat: JsValue)
    ensures Truthy(flat)
    ensures Truthy(style) ==> flat == style
    ensures !Truthy(style) ==> flat == Obj(map[])
  {
    if Truthy(style) then style else Obj(map[])
  }

  datatype Corner = TopLeft | TopRight | BottomRight | BottomLeft

  /** The order of the corners in the radii array. */
  const CornerOrder: seq<Corner> := [TopLeft, TopRight, BottomRight, BottomLeft]

  /** The style field that overrides the base radius at a corner. */
  function Key(c: Corner): string {
    match c
    case TopLeft => "borderTopLeftRadius"
    case TopRight => "borderTopRightRadius"
    case BottomRight => "borderBottomRightRadius"
    case BottomLeft => "borderBottomLeftRadius"
  }

  /** `flatStyle.borderRadius || 0`: the field when it is truthy, whatever its type, else 0. */
  function BaseRadius(flat: JsValue): (r: JsValue)
    requires Truthy(flat)
    ensures Truthy(Get(flat, "borderRadius")) ==> r == Get(flat, "borderRadius")
    ensures !Truthy(Get(flat, "borderRadius")) ==> r == Num(0.0)
  {
    var radius := Get(flat, "borderRadius");
    if Truthy(radius) then radius else Num(0.0)
  }

  /** The radius of one corner: its own field when that is a number, else the base radius. */
  function CornerRadius(flat: JsValue, c: Corner): (r: JsValue)
    requires Truthy(flat)
    ensures Get(flat, Key(c)).Num? ==> r == Get(flat, Key(c))
    ensures !Get(flat, Key(c)).Num? ==> r == BaseRadius(flat)
    ensures r.Num? || Truthy(r)
  {
    ValidNumber(BaseRadius(flat), Get(flat, Key(c)))
  }

  /** Each element of `xs` written twice in a row. */
  function Duplicate<T>(xs: seq<T>): (r: seq<T>)
    ensures |r| == 2 * |xs|
    ensures forall i :: 0 <= i < |xs| ==> r[2 * i] == xs[i] && r[2 * i + 1] == xs[i]
  {
    if xs == [] then []
    else
      var rest := Duplicate(xs[1..]);
      assert forall i :: 1 <= i < |xs| ==> rest[2 * (i - 1)] == xs[i] && rest[2 * (i - 1) + 1] == xs[i];
      [xs[0], xs[0]] + rest
  }

  /** `borderRadiiPerCorner` for the (already flattened) `style` prop. */
  function Radii(style: JsValue): (r: seq<JsValue>)
    ensures |r| == 8
    ensures forall k :: 0 <= k < 4 ==> r[2 * k] == r[2 * k + 1]
    ensures forall k :: 0 <= k < 4 ==>
              var field := Get(FlatStyle(style), Key(CornerOrder[k]));
              r[2 * k] == (if field.Num? then field else BaseRadius(FlatStyle(style)))
  {
    var flat := FlatStyle(style);
    Duplicate(seq(4, k requires 0 <= k < 4 => CornerRadius(flat, CornerOrder[k])))
  }

  /** Eight copies of one radius. */
  function Uniform(radius: JsValue): seq<JsValue> {
    seq(8, _ => radius)
  }

  /** Position `i` of the radii holds the radius of corner `i / 2`. */
  lemma RadiiAt(style: JsValue, i: int)
    requires 0 <= i < 8
    ensures Radii(style)[i] == CornerRadius(FlatStyle(style), CornerOrder[i / 2])
  {
    var k := i / 2;
    assert i == 2 * k || i == 2 * k + 1;
  }

  /** Radii agree with `Uniform(radius)` exactly when every corner resolves to `radius`. */
  lemma UniformIff(style: JsValue, radius: JsValue)
    ensures Radii(style) == Uniform(radius)
        <==> forall k :: 0 <= k < 4 ==> CornerRadius(FlatStyle(style), CornerOrder[k]) == radius
  {
    var r := Radii(style);
    var flat := FlatStyle(style);
    if forall k :: 0 <= k < 4 ==> CornerRadius(flat, CornerOrder[k]) == radius {
      forall i | 0 <= i < 8
        ensures r[i] == radius
      {
        RadiiAt(style, i);
      }
      assert r == Uniform(radius);
    }
    if r == Uniform(radius) {
      forall k | 0 <= k < 4
        ensures CornerRadius(flat, CornerOrder[k]) == radius
      {
        RadiiAt(style, 2 * k);
        assert r[2 * k] == Uniform(radius)[2 * k];
      }
    }
  }

  /** A style with no radius fields at all gives eight zeros. */
  lemma NoRadiusFieldsGiveZero(style: JsValue)
    requires Get(FlatStyle(style), "borderRadius") == Undefined
    requires forall c: Corner :: Get(FlatStyle(style), Key(c)) == Undefined
    ensures Radii(style) == Uniform(Num(0.0))
  {
    UniformIff(style, Num(0.0));
  }

  /** A numeric `borderRadius` and no numeric corner field give that radius everywhere,
      zero included. */
  lemma BaseRadiusEverywhere(style: JsValue, radius: real)
    requires Get(FlatStyle(style), "borderRadius") == Num(radius)
    requires forall c: Corner :: !Get(FlatStyle(style), Key(c)).Num?
    ensures Radii(style) == Uniform(Num(radius))
  {
    UniformIff(style, Num(radius));
  }

  /** `{borderTopLeftRadius: 3, borderRadius: 5}` gives `[3, 3, 5, 5, 5, 5, 5, 5]`. */
  lemma TopLeftOverride()
    ensures Radii(Obj(map["borderTopLeftRadius" := Num(3.0), "borderRadius" := Num(5.0)]))
         == [Num(3.0), Num(3.0), Num(5.0), Num(5.0), Num(5.0), Num(5.0), Num(5.0), Num(5.0)]
  {
    var r := Radii(Obj(map["borderTopLeftRadius" := Num(3.0), "borderRadius" := Num(5.0)]));
    assert r[0] == Num(3.0) && r[2] == Num(5.0) && r[4] == Num(5.0) && r[6] == Num(5.0);
  }

  /** Every radius handed on is a number exactly when the base radius is one or every
      corner has a numeric field of its own. */
  lemma AllNumericIff(style: JsValue)
    ensures (forall i :: 0 <= i < 8 ==> Radii(style)[i].Num?)
        <==> BaseRadius(FlatStyle(style)).Num?
             || forall k :: 0 <= k < 4 ==> Get(FlatStyle(style), Key(CornerOrder[k])).Num?
  {
    var flat := FlatStyle(style);
    var allFields := forall k :: 0 <= k < 4 ==> Get(flat, Key(CornerOrder[k])).Num?;
    if BaseRadius(flat).Num? || allFields {
      forall i | 0 <= i < 8
        ensures Radii(style)[i].Num?
      {
        RadiiAt(style, i);
      }
    } else {
      var k :| 0 <= k < 4 && !Get(flat, Key(CornerOrder[k])).Num?;
      RadiiAt(style, 2 * k);
      assert !Radii(style)[2 * k].Num?;
    }
  }

  /** A truthy `borderRadius` that is not a number, such as the string "5", is not
      replaced by 0 but reaches every corner. */
  lemma NonNumericBaseRadiusLeaks()
    ensures Radii(Obj(map["borderRadius" := Str("5")])) == Uniform(Str("5"))
  {
    BaseRadiusLeaks(Obj(map["borderRadius" := Str("5")]), Str("5"));
  }

  /** Any truthy `borderRadius`, number or not, becomes the radius of every corner
      that has no field of its own. */
  lemma BaseRadiusLeaks(style: JsValue, radius: JsValue)
    requires Truthy(radius) && Get(FlatStyle(style), "borderRadius") == radius
    requires forall c: Corner :: Get(FlatStyle(style), Key(c)) == Undefined
    ensures Radii(style) == Uniform(radius)
  {
    UniformIff(style, radius);
  }
}

=== FILE: gradient.dfy ===
/**
 One render of the Android `LinearGradient` component, reduced to what it hands
 the native `BVLinearGradient` view and which warnings it emits on the way.
 */
module Gradient {
  import opened JsValues
  import opened Warnings
  import opened Points
  import opened BorderRadii
  import opened Locations

  /** The props the component interprets; `style` is the result of flattening the
      style prop, and every other prop is passed through untouched. */
  datatype Props = Props(colors: JsValue, locations: JsValue, start: JsValue, end: JsValue, style: JsValue)

  /** The props of the native gradient view other than its fixed absolute-fill style. */
  datatype NativeProps = NativeProps(
    colors: seq<JsValue>,
    start: JsValue,
    end: JsValue,
    locations: JsValue,
    borderRadii: seq<JsValue>)

  /** The warnings emitted, in order, and the native props or the exception thrown. */
  datatype Rendered = Rendered(warnings: seq<Warning>, native: Result<NativeProps, TypeError>)

  /** `colors.map(processColor)` on an array of colours. */
  function MapColors(colors: seq<JsValue>, processColor: JsValue -> JsValue): (parsed: seq<JsValue>)
    ensures |parsed| == |colors|
    ensures forall i :: 0 <= i < |colors| ==> parsed[i] == processColor(colors[i])
  {
    seq(|colors|, i requires 0 <= i < |colors| => processColor(colors[i]))
  }

  /** `render()`: the mismatch check first, then the radii, then the native props in
      the order they are written. `colors.map` throws unless `colors` is an array, and
      then neither point is converted; `processColor` is the host's colour parser. */
  function Render(p: Props, processColor: JsValue -> JsValue): (out: Rendered)
    ensures out.native.Success?
        <==> p.colors.Arr? && (!Truthy(p.locations) || p.locations.Arr? || p.locations.Str?)
    ensures !p.colors.Arr? ==> out.native == Failure(TypeError("colors.map"))
    ensures p.colors.Arr? && out.native.Failure? ==> out.native == Failure(TypeError("locations.slice"))
    ensures out.warnings
         == (if LengthsDiffer(p.colors, p.locations) then [LengthMismatch] else [])
            + (if p.colors.Arr? then
                 (if p.start.Arr? then [DeprecatedArrayPoint("start")] else [])
                 + (if p.end.Arr? then [DeprecatedArrayPoint("end")] else [])
               else [])
    ensures LengthsDiffer(p.colors, p.locations) ==> out.warnings[0] == LengthMismatch
    ensures out.native.Success? ==>
              var n := out.native.value;
              && |n.colors| == |p.colors.elems|
              && (forall i :: 0 <= i < |n.colors| ==> n.colors[i] == processColor(p.colors.elems[i]))
              && n.start == ConvertPoint("start", p.start).value
              && n.end == ConvertPoint("end", p.end).value
              && Success(n.locations) == ForwardedLocations(|p.colors.elems|, p.locations)
              && n.borderRadii == Radii(p.style)
  {
    var mismatch := if LengthsDiffer(p.colors, p.locations) then [LengthMismatch] else [];
    var radii := Radii(p.style);
    match p.colors
    case Arr(colors) =>
      var start := ConvertPoint("start", p.start);
      var end := ConvertPoint("end", p.end);
      var warnings := mismatch + start.warnings + end.warnings;
      var locations := ForwardedLocations(|colors|, p.locations);
      if locations.Failure? then
        Rendered(warnings, Failure(locations.error))
      else
        Rendered(warnings, Success(NativeProps(MapColors(colors, processColor), start.value, end.value, locations.value, radii)))
    case _ =>
      Rendered(mismatch, Failure(TypeError("colors.map")))
  }

  /** The mismatch warning never stops the locations reaching the native view: two
      arrays of different lengths still render, with the locations cut to the colours. */
  lemma MismatchStillForwardsLocations(
    colors: seq<JsValue>, locations: seq<JsValue>, start: JsValue, end: JsValue, style: JsValue,
    processColor: JsValue -> JsValue)
    requires |colors| != |locations|
    ensures var out := Render(Props(Arr(colors), Arr(locations), start, end, style), processColor);
            && out.warnings[0] == LengthMismatch
            && out.native.Success?
            && out.native.value.locations == Arr(locations[..Min(|colors|, |locations|)])
  {
  }

  /** Three colours and the two locations `[0, 0.5]`: exactly one warning, and the
      locations forwarded as given. */
  lemma FewerLocationsPassThrough(processColor: JsValue -> JsValue)
    ensures var out := Render(Props(Arr([Str("red"), Str("blue"), Str("green")]), Arr([Num(0.0), Num(0.5)]),
                                    Undefined, Undefined, Undefined), processColor);
            && out.warnings == [LengthMismatch]
            && out.native.Success?
            && out.native.value.locations == Arr([Num(0.0), Num(0.5)])
  {
    assert [Num(0.0), Num(0.5)][..2] == [Num(0.0), Num(0.5)];
  }

  /** Two colours and the three locations `[0, 0.5, 1]`: the locations are cut to `[0, 0.5]`. */
  lemma ExtraLocationsTruncated(processColor: JsValue -> JsValue)
    ensures var out := Render(Props(Arr([Str("red"), Str("blue")]), Arr([Num(0.0), Num(0.5), Num(1.0)]),
                                    Undefined, Undefined, Undefined), processColor);
            && out.native.Success?
            && out.native.value.locations == Arr([Num(0.0), Num(0.5)])
  {
    assert [Num(0.0), Num(0.5), Num(1.0)][..2] == [Num(0.0), Num(0.5)];
  }
}

=== FILE: js_value.dfy ===
/**
 The JavaScript values that flow through the gradient component's props, with
 the two pieces of language semantics the component relies on: truthiness
 (`x || y`, `x && y`, `x ? a : b`) and reading a named property (`v.x`).
 */
module JsValues {

  /** A JavaScript value. Arrays carry only their elements and objects only their
      own enumerable data properties; functions and NaN are not modelled. */
  datatype JsValue =
    | Undefined
    | Null
    | Bool(b: bool)
    | Num(n: real)
    | Str(s: string)
    | Arr(elems: seq<JsValue>)
    | Obj(fields: map<string, JsValue>)

  /** ToBoolean: the falsy values are undefined, null, false, 0 and the empty string. */
  predicate Truthy(v: JsValue) {
    match v
    case Undefined => false
    case Null => false
    case Bool(b) => b
    case Num(n) => n != 0.0
    case Str(s) => s != ""
    case Arr(_) => true
    case Obj(_) => true
  }

  /** `typeof v === 'object'`, which also holds of null and of arrays. */
  predicate IsObjectType(v: JsValue) {
    v.Null? || v.Arr? || v.Obj?
  }

  /** A key such as "0" or "17" that would address an array element. The first
      character is tested on its own as well, so that a key such as "x" is seen not
      to be one without instantiating the quantifier. */
  predicate IsIndexKey(key: string) {
    key != "" && '0' <= key[0] <= '9' && forall i :: 0 <= i < |key| ==> '0' <= key[i] <= '9'
  }

  /** The own property `key` of an object, undefined when absent. */
  function Field(fields: map<string, JsValue>, key: string): JsValue {
    if key in fields then fields[key] else Undefined
  }

  /** Reading `v[key]` for a non-index key. Reading any property of null or
      undefined throws, so the receiver must be some other value. */
  function Get(v: JsValue, key: string): JsValue
    requires !v.Undefined? && !v.Null?
    requires !IsIndexKey(key)
  {
    match v
    case Obj(fields) => Field(fields, key)
    case Arr(elems) => if key == "length" then Num(|elems| as real) else Undefined
    case Str(s) => if key == "length" then Num(|s| as real) else Undefined
    case _ => Undefined
  }

  /** The TypeError thrown while evaluating `expression`, by reading a property of
      null or undefined or by calling something that is not a function. */
  datatype TypeError = TypeError(expression: string)

  /** The value an expression evaluates to, or the exception it throws. */
  datatype Result<+R, +E> = Success(value: R) | Failure(error: E)
}

=== FILE: locations.dfy ===
/**
 The `locations` prop: the warning when its length differs from that of
 `colors`, and the truncation `locations.slice(0, colors.length)` that keeps
 the native view from seeing more stops than colours.
 */
module Locations {
  import opened JsValues

  function Min(a: int, b: int): int {
    if a <= b then a else b
  }

  /** A relative index of `slice` made absolute and clamped to `[0, len]`: negative
      values count back from the end (ECMAScript, Array.prototype.slice; and
      String.prototype.slice clamps the same way). */
  function ClampIndex(relative: int, len: nat): (k: nat)
    ensures k <= len
    ensures 0 <= relative <= len ==> k == relative
    ensures len <= relative ==> k == len
    ensures relative < 0 <= len + relative ==> k == len + relative
    ensures len + relative < 0 ==> k == 0
  {
    if relative < 0 then
      if len + relative < 0 then 0 else len + relative
    else
      Min(relative, len)
  }

  /** `a.slice(start, end)` for integer arguments, on arrays and strings alike: the
      run of `a` from the clamped start up to the clamped end, empty when the end
      comes first. */
  function Slice<T>(a: seq<T>, start: int, end: int): (r: seq<T>)
    ensures |r| <= |a|
    ensures ClampIndex(start, |a|) + |r| <= |a|
    ensures r == a[ClampIndex(start, |a|)..ClampIndex(start, |a|) + |r|]
    ensures |r| == (if ClampIndex(start, |a|) <= ClampIndex(end, |a|)
                    then ClampIndex(end, |a|) - ClampIndex(start, |a|) else 0)
  {
    var from := ClampIndex(start, |a|);
    var final := ClampIndex(end, |a|);
    if from <= final then a[from..final] else []
  }

  /** The element-by-element copy loop of Array.prototype.slice in ECMAScript,
      which builds the same result as `Slice`. */
  method SliceByCopy<T>(a: seq<T>, start: int, end: int) returns (r: seq<T>)
    ensures r == Slice(a, start, end)
  {
    var from := ClampIndex(start, |a|);
    var final := ClampIndex(end, |a|);
    var k := from;
    r := [];
    while k < final
      invariant from <= k <= |a|
      invariant final < from ==> k == from
      invariant from <= final ==> k <= final
      invariant r == a[from..k]
      decreases final - k
    {
      r := r + [a[k]];
      k := k + 1;
    }
    if from <= final {
      assert k == final;
    }
  }

  /** Slicing from 0 to a non-negative count keeps the first `min(count, |a|)`
      elements: a prefix, never longer than `count`, and all of `a` when `a` is
      not longer than `count`. */
  lemma SlicePrefix<T>(a: seq<T>, count: nat)
    ensures Slice(a, 0, count) == a[..Min(count, |a|)]
    ensures Slice(a, 0, count) <= a
    ensures |Slice(a, 0, count)| <= count
    ensures |a| <= count ==> Slice(a, 0, count) == a
  {
  }

  /** `(colors && locations) && (colors.length !== locations.length)`. Arrays and
      strings have a numeric `length`; booleans and numbers have none. */
  function LengthsDiffer(colors: JsValue, locations: JsValue): (differ: bool)
    ensures differ ==> Truthy(colors) && Truthy(locations)
    ensures Truthy(colors) && Truthy(locations)
            && (colors.Arr? || colors.Str?) && (locations.Arr? || locations.Str?) ==>
              (differ <==> (if colors.Arr? then |colors.elems| else |colors.s|)
                           != (if locations.Arr? then |locations.elems| else |locations.s|))
    ensures (Truthy(colors) && Truthy(locations) && (colors.Bool? || colors.Num?)
             && (locations.Arr? || locations.Str?)) ==> differ
    ensures (Truthy(colors) && Truthy(locations) && (colors.Arr? || colors.Str?)
             && (locations.Bool? || locations.Num?)) ==> differ
    ensures (colors.Bool? || colors.Num?) && (locations.Bool? || locations.Num?) ==> !differ
  {
    Truthy(colors) && Truthy(locations) && Get(colors, "length") != Get(locations, "length")
  }

  /** For array props the warning fires exactly when the two lengths differ. */
  lemma LengthsDifferOfArrays(colors: seq<JsValue>, locations: seq<JsValue>)
    ensures LengthsDiffer(Arr(colors), Arr(locations)) <==> |colors| != |locations|
  {
  }

  /** `locations ? locations.slice(0, colors.length) : null`, for a `colors` array of
      `colorCount` elements. A string has a `slice` method of its own; any other
      truthy value has none, and calling it throws. */
  function ForwardedLocations(colorCount: nat, locations: JsValue): (r: Result<JsValue, TypeError>)
    ensures !Truthy(locations) ==> r == Success(Null)
    ensures locations.Arr? ==> r.Success? && r.value.Arr?
                               && r.value.elems == locations.elems[..Min(colorCount, |locations.elems|)]
    ensures locations.Str? && Truthy(locations) ==>
              r.Success? && r.value.Str? && r.value.s == locations.s[..Min(colorCount, |locations.s|)]
    ensures r.Failure? <==> Truthy(locations) && !locations.Arr? && !locations.Str?
  {
    if !Truthy(locations) then Success(Null)
    else
      match locations
      case Arr(elems) => Success(Arr(Slice(elems, 0, colorCount)))
      case Str(s) => Success(Str(Slice(s, 0, colorCount)))
      case _ => Failure(TypeError("locations.slice"))
  }

  /** Forwarded locations are never more than the colours, and are the whole array
      when it is not longer than `colors`. */
  lemma ForwardedLocationsBounded(colorCount: nat, locations: seq<JsValue>)
    ensures ForwardedLocations(colorCount, Arr(locations)).value.elems <= locations
    ensures |ForwardedLocations(colorCount, Arr(locations)).value.elems| <= colorCount
    ensures |locations| <= colorCount ==> ForwardedLocations(colorCount, Arr(locations)) == Success(Arr(locations))
  {
    SlicePrefix(locations, colorCount);
  }
}

=== FILE: points.dfy ===
/**
 Normalisation of the `start` and `end` props: a point given as an object
 `{x, y}` becomes the pair `[x, y]` handed to the native view, and the
 deprecated array form draws a warning.
 */
module Points {
  import opened JsValues
  import opened Warnings

  /** The value forwarded to the native view and the warning emitted, if any. */
  datatype Converted = Converted(value: JsValue, warnings: seq<Warning>)

  /** The object literal `{x: x, y: y}`. */
  function PointObject(x: JsValue, y: JsValue): JsValue {
    Obj(map["x" := x, "y" := y])
  }

  /** `convertPoint(name, point)`, as written: the array test only warns, and every
      non-null object, arrays included, is then read through `.x` and `.y`. */
  function ConvertPoint(name: string, point: JsValue): (r: Converted)
    ensures r.warnings == (if point.Arr? then [DeprecatedArrayPoint(name)] else [])
    ensures point.Obj? ==> r.value == Arr([Field(point.fields, "x"), Field(point.fields, "y")])
    ensures point.Arr? ==> r.value == Arr([Undefined, Undefined])
    ensures !point.Obj? && !point.Arr? ==> r.value == point
  {
    var warnings := if point.Arr? then [DeprecatedArrayPoint(name)] else [];
    if point != Null && IsObjectType(point) then
      Converted(Arr([Get(point, "x"), Get(point, "y")]), warnings)
    else
      Converted(point, warnings)
  }

  /** A point object converts to exactly its two coordinates, without a warning. */
  lemma ObjectPointConverts(name: string, x: JsValue, y: JsValue)
    ensures ConvertPoint(name, PointObject(x, y)) == Converted(Arr([x, y]), [])
  {
  }

  /** Conversion is the identity, and silent, on everything that is not an object
      (null and undefined included); nothing else is left unchanged except a pair
      that is already `[undefined, undefined]`. */
  lemma ConvertPointUnchangedIff(name: string, point: JsValue)
    ensures ConvertPoint(name, point).value == point
        <==> !point.Obj? && (!point.Arr? || point.elems == [Undefined, Undefined])
  {
    if point.Obj? {
      assert ConvertPoint(name, point).value.Arr?;
    }
  }

  /** `elems[i]`, or undefined past the end of the array. */
  function At(elems: seq<JsValue>, i: nat): JsValue {
    if i < |elems| then elems[i] else Undefined
  }

  /** `convertPoint` with the array form converted rather than lost: the array
      `[a, b]` becomes `[a, b]` and still draws the deprecation warning. */
  function ConvertPointIntended(name: string, point: JsValue): (r: Converted)
    ensures r.warnings == (if point.Arr? then [DeprecatedArrayPoint(name)] else [])
    ensures point.Arr? ==> r.value == Arr([At(point.elems, 0), At(point.elems, 1)])
    ensures !point.Arr? ==> r == ConvertPoint(name, point)
  {
    match point
    case Arr(elems) => Converted(Arr([At(elems, 0), At(elems, 1)]), [DeprecatedArrayPoint(name)])
    case _ => ConvertPoint(name, point)
  }

  /** The corrected conversion keeps a two-element array point unchanged, and
      agrees with the object form for the same coordinates. */
  lemma IntendedArrayPointKept(name: string, x: JsValue, y: JsValue)
    ensures ConvertPointIntended(name, Arr([x, y])).value == Arr([x, y])
    ensures ConvertPointIntended(name, Arr([x, y])).value == ConvertPoint(name, PointObject(x, y)).value
  {
  }

  /** As written, the array point `[0, 1]` reaches the native view as
      `[undefined, undefined]` instead of `[0, 1]`. */
  lemma ArrayPointLosesCoordinates()
    ensures ConvertPoint("start", Arr([Num(0.0), Num(1.0)])).value == Arr([Undefined, Undefined])
    ensures ConvertPoint("start", Arr([Num(0.0), Num(1.0)])).value != Arr([Num(0.0), Num(1.0)])
  {
  }
}

=== FILE: warnings.dfy ===
/** The `console.warn` calls of the component, as values instead of effects. */
module Warnings {

  datatype Warning =
    /** `colors` and `locations` are both given and their lengths differ. */
    | LengthMismatch
    /** The point prop `prop` was given in the deprecated array form. */
    | DeprecatedArrayPoint(prop: string)
}
